=== FILE: README.md ===
# Alert box: builder and registry model

A Dafny model of the two pieces of logic in the Filament alert-box plugin:

- **The fluent alert builder** (`AlertBuilder`). It accumulates one alert's flat configuration record through chained setters and hands it to the registry.
- **The position-keyed registry** (`AlertStore`, plus `AlertShortcuts` for the manager's static builder factories). It stores, for each render-hook position, the ordered list of alerts added there.

The PHP builder is a mutable object, and its failing setters throw `InvalidArgumentException` before they change anything. Here a builder is an immutable `Builder` value, and each validating setter returns `Result<Builder, Error>`. A rejected call therefore yields no new state, and the caller keeps the builder it already had. The process-wide static `$alerts` array is a `Store = map<string, seq<Config>>` value. Every registry operation takes a store and returns the next one.

The two framework inputs are parameters:
- The colour table read from configuration when a builder is made is a `Theme` map from severity to colour slots. Any entry or slot may be missing.
- The random part of `uniqid('alert_', true)` is an `entropy` string. A generated id is `"alert_" + entropy`.

Modules:
- `Wrappers`: `Option` and `Result`.
- `Text`: PHP `empty()` on strings, ASCII character classes, and decimal rendering with its round trip.
- `AlertTypes`: severities, the `Config` record and its defaults, errors and their messages, and hook keys.
- `ColorFormat`: colour validation.
- `AlertStore`: the registry.
- `AlertBuilder`: the builder.
- `AlertShortcuts`: `make` and the static `success`/`error`/`warning`/`info`.

The central proved facts:
- Every builder reachable from `New` by any chain of calls is well formed (`ChainKeepsWellFormed`). Well formed means:
  - its card style is in 1..4;
  - its timeout is positive;
  - auto-hide and permanence are never both on;
  - its id is usable.
- Such a builder is stored exactly as configured when shown at a non-empty position (`ChainedBuilderShowsAsConfigured`).
- Every registry reachable by any calls keeps every bucket non-empty (`RunKeepsBucketsNonEmpty`).
- The total alert count rises by exactly one per successful add (`AddAlertRaisesTotal`).

`GetPosition` and `ToArray` are stated through `Show`: the position is the bucket `show` files under, and the array is the entry it stores. `AlertTypes.ErrorMessage` gives every exception's text.

In these details the model follows the PHP code:
- `noIcon` does not reset any icon size. The builder has no icon-size field or setter.
- `noIcon`, `canBeClose` and `permanent` default their flag to `true` in PHP. Here the flag is always an argument: the PHP calls without one are `NoIcon(b, true)`, `CanBeClose(b, true)` and `Permanent(b, true)`.
- `icon` does not turn the `noIcon` flag back off. It only sets the icon.
- `title` and `icon` reject `"0"` as well as `""`, because PHP's `empty()` treats both as empty. The constructor only drops `""`, so `make("0")` does produce the title `"0"`.
- The colour check is a prefix match with no end anchor. `"#fffzzz"` and `"red; x"` are accepted, while `"#ff"` and `"123"` are refused.
- A severity setter treats an icon as unset when it is null, `""` or `"0"` (PHP's `! $icon`). It treats a colour as unset only when it is null (PHP's `??`).

## Model

| member | source | states |
|---|---|---|
| AlertTypes.ParseSeverity | src/AlertBoxManager.php:62-76 | a `type` token is accepted iff it is one of info/success/warning/danger/error; "error" reads as Danger and every other accepted token names its own severity |
| AlertTypes.SeverityNameRoundTrip | src/AlertBuilder.php:54 | the token stored for each severity reads back as that severity and is an accepted token other than "error" |
| AlertTypes.GeneratedId | src/AlertBuilder.php:71 | a generated id is `alert_` followed by the random part, hence never PHP-empty |
| AlertTypes.CardStyleMessageReportsValue | src/AlertBuilder.php:116-119 | the card-style exception message is the fixed prefix followed by a decimal that reads back as exactly the rejected number |
| AlertTypes.ErrorMessage | src/AlertBuilder.php:85-328 | every exception text is non-empty; the six texts without an argument are exactly "Title cannot be empty", "Icon cannot be empty", "Color cannot be empty", "Timeout must be greater than 0", "Position cannot be empty" and "Invalid alert type"; the card-style text starts with its fixed prefix, and the colour text is its prefix followed by exactly the rejected input (texts of src/AlertBuilder.php:85, 118, 173, 229, 237, 328 and src/AlertBoxManager.php:58, 63) |
| AlertTypes.ErrorMessageInjective | src/AlertBuilder.php:85-328 | distinct errors have distinct messages, so a message identifies the exception and the value it reports (all eight throws: src/AlertBuilder.php:85, 118, 173, 229, 237, 328 and src/AlertBoxManager.php:58, 63) |
| AlertTypes.HookKey | src/AlertBuilder.php:394-434 | every quick-position key is non-empty, so a show at one of them cannot fail on the position |
| AlertTypes.HookKeysDistinct | src/AlertBuilder.php:394-434 | distinct quick-position setters target distinct buckets |
| Text.IntToDecimalRoundTrip | src/AlertBuilder.php:118 | the `%d` rendering of every integer parses back to that integer |
| ColorFormat.HasColorPrefixMatchesPattern | src/AlertBuilder.php:233 | the direct test (letter first, or `#` and three hex digits) agrees on every string with the pattern's four alternatives, with hex runs of 3 to 8 and an unanchored end |
| ColorFormat.ValidateColor | src/AlertBuilder.php:226-238 | a colour is accepted iff it is not PHP-empty and a prefix matches the pattern; an accepted colour is returned unchanged; PHP-empty input fails with "Color cannot be empty", other rejects with "Invalid color format: <input>" |
| ColorFormat.ColorExamples | src/AlertBuilder.php:226-238 | `#fff`, `#112233`, `rgb(1,2,3)`, `hsl(0,0%,0%)` and `red` pass; `123` and `#ff` are invalid; `""` and `"0"` are empty |
| AlertStore.MergeWithDefaults | src/AlertBoxManager.php:70-76 | a stored entry carries the checked severity and a usable id: the caller's id when it is not PHP-empty, otherwise a generated one |
| AlertStore.MergeNullableKeyOverrides | src/AlertBoxManager.php:70 | supplying title, description, icon or any of the three colours overrides exactly that field of the stored entry with the supplied value, null included, and changes nothing else |
| AlertStore.MergeScalarKeyOverrides | src/AlertBoxManager.php:70 | supplying style_type, timeout, closeable, auto_hide, permanent or no_icon overrides exactly that field with the supplied value and changes nothing else |
| AlertStore.MergeTextKeyOverrides | src/AlertBoxManager.php:70-71 | supplying an id overrides the id (a PHP-empty one is replaced by a generated id) and changes nothing else; supplying classes or style overrides exactly that field; the raw type token reaches the entry only as the checked severity; starting from MergeTypeOnly and supplying keys one at a time, the three override lemmas fix the entry of every partial array, with or without an id |
| AlertStore.MergeFullInput | src/AlertBoxManager.php:70-71 | a complete configuration array is stored unchanged when its id is usable, and with only a generated id otherwise |
| AlertStore.MergeTypeOnly | src/AlertBoxManager.php:25-42 | an array holding only a type is stored as the default configuration with that severity and a generated id |
| AlertStore.AddAlert | src/AlertBoxManager.php:55-79 | fails iff the position is PHP-empty (EmptyPosition, checked first) or the type is missing or unknown (InvalidType); on success the bucket gains exactly one entry at its end, is created if absent, and every other bucket is unchanged |
| AlertStore.AddAlertAppendsMergedEntry | src/AlertBoxManager.php:70-78 | the appended entry is the merged configuration (the defaults overridden by the caller's keys, as MergeTypeOnly and the three override lemmas MergeNullableKeyOverrides, MergeScalarKeyOverrides and MergeTextKeyOverrides pin down for every array, the id included), with "error" stored as Danger and every other token kept |
| AlertStore.AddAlertKeepsBucketsNonEmpty | src/AlertBoxManager.php:66-78 | an add keeps every bucket non-empty |
| AlertStore.GetAlerts | src/AlertBoxManager.php:84-91 | no position yields the whole registry; a missing position yields the empty list; a present one yields its bucket |
| AlertStore.GetAlertsAfterAdd | src/AlertBoxManager.php:78 | after an add, the added position reads as its old list plus the new entry and every other position reads as before |
| AlertStore.PositionsWithAlerts | src/AlertBoxManager.php:96-99 | the positions returned are keys of the registry, and exactly those that have alerts |
| AlertStore.HasAlerts | src/AlertBoxManager.php:104-107 | a position has alerts iff its list is not empty |
| AlertStore.NonEmptyBucketsAreKeys | src/AlertBoxManager.php:96-107 | under the non-empty-bucket invariant the positions with alerts are exactly the keys, and `hasAlerts(p)` holds iff p is a key |
| AlertStore.SumCountsRemove | src/AlertBoxManager.php:118 | the total count splits at any position into that bucket's length plus the rest |
| AlertStore.GetAlertCount | src/AlertBoxManager.php:112-119 | with a position, the length of its bucket (0 if absent); without one, the sum of all bucket lengths |
| AlertStore.AddAlertRaisesTotal | src/AlertBoxManager.php:66-78 | a successful add raises the total count by exactly one |
| AlertStore.ClearAlerts | src/AlertBoxManager.php:124-127 | removes exactly the given key; every other bucket is unchanged |
| AlertStore.ClearAlertsFacts | src/AlertBoxManager.php:124-127 | clearing is idempotent, a no-op on an unused position, keeps buckets non-empty and lowers the total by the cleared bucket's length |
| AlertStore.ClearAll | src/AlertBoxManager.php:132-135 | the emptied registry has no alerts anywhere and a total count of 0 |
| AlertStore.RunKeepsBucketsNonEmpty | src/AlertBoxManager.php:55-135 | any sequence of adds (accepted or rejected) and clears keeps every bucket non-empty |
| AlertStore.RegistryScenario | src/AlertBoxManager.php:57-76 | an "error" add is stored as Danger; a "bogus" type fails; `""` and `"0"` positions fail |
| AlertBuilder.Palette | src/AlertBuilder.php:249-307 | every hard-coded fallback colour is `#` followed by six hex digits, and the builder's own colour check accepts unchanged |
| AlertBuilder.PaletteColorsAreValid | src/AlertBuilder.php:243-310 | a colour a severity setter fills in passes the colour check unless the theme supplied it, and a missing theme entry falls back to the palette |
| AlertBuilder.DefaultIcon | src/AlertBuilder.php:246-303 | each severity's default icon is non-empty |
| AlertBuilder.New | src/AlertBuilder.php:61-77 | a new builder has the default record, a generated id and the default position, and its title is set iff the argument is present and not `""` |
| AlertBuilder.Title | src/AlertBuilder.php:82-91 | fails with EmptyTitle iff the title is PHP-empty (`""` or `"0"`); otherwise sets the title and nothing else |
| AlertBuilder.Description | src/AlertBuilder.php:96-101 | sets the description, unvalidated, and nothing else |
| AlertBuilder.Message | src/AlertBuilder.php:106-109 | is `description` |
| AlertBuilder.CardStyle | src/AlertBuilder.php:114-125 | succeeds iff the style is 1, 2, 3 or 4, then sets only the style; otherwise fails reporting the number |
| AlertBuilder.BannerStyle | src/AlertBuilder.php:130-135 | equals a successful `cardStyle(1)` |
| AlertBuilder.CardWithBorder | src/AlertBuilder.php:140-145 | equals a successful `cardStyle(2)` |
| AlertBuilder.ModernCard | src/AlertBuilder.php:150-155 | equals a successful `cardStyle(3)` |
| AlertBuilder.MinimalistStyle | src/AlertBuilder.php:160-165 | equals a successful `cardStyle(4)` |
| AlertBuilder.Icon | src/AlertBuilder.php:170-179 | fails with EmptyIcon iff the name is PHP-empty; otherwise sets the icon and nothing else, leaving the noIcon flag as it was |
| AlertBuilder.NoIcon | src/AlertBuilder.php:184-191 | whatever the flag, clears icon and icon colour and records the flag; nothing else changes |
| AlertBuilder.IconColor | src/AlertBuilder.php:196-201 | succeeds iff the colour is valid, storing it unchanged in the icon colour only; otherwise fails with the validator's error |
| AlertBuilder.TitleColor | src/AlertBuilder.php:206-211 | the same for the title colour |
| AlertBuilder.DescriptionColor | src/AlertBuilder.php:216-221 | the same for the description colour |
| AlertBuilder.SetSeverity | src/AlertBuilder.php:243-310 | sets the type; assigns the severity's icon iff the icon is null, `""` or `"0"`; fills each colour only when null (theme entry, else palette), never overwriting a set one; nothing else changes |
| AlertBuilder.AsError | src/AlertBuilder.php:275-278 | `error()` is exactly `danger()` |
| AlertBuilder.SeveritySettersCompose | src/AlertBuilder.php:243-310 | a severity setter is idempotent; a later one changes the type but keeps the icon and colours the first one filled in |
| AlertBuilder.SeverityKeepsCallersIcon | src/AlertBuilder.php:170-179 | an icon set by the caller survives any severity setter |
| AlertBuilder.CanBeClose | src/AlertBuilder.php:315-320 | sets the closeable flag and nothing else |
| AlertBuilder.AutoDisappear | src/AlertBuilder.php:325-336 | fails iff seconds ≤ 0; otherwise auto-hide on, timeout seconds×1000 (positive), permanent off, nothing else changed |
| AlertBuilder.Permanent | src/AlertBuilder.php:341-349 | records the flag; true also turns auto-hide off, false leaves auto-hide as it was |
| AlertBuilder.Classes | src/AlertBuilder.php:354-359 | sets the extra classes, unvalidated, and nothing else |
| AlertBuilder.Style | src/AlertBuilder.php:364-369 | sets the inline style, unvalidated, and nothing else |
| AlertBuilder.Position | src/AlertBuilder.php:374-389 | `position` and `renderHook` set the target, unvalidated, and nothing else |
| AlertBuilder.AtHook | src/AlertBuilder.php:394-434 | each quick setter is `position` with its hook's (non-empty) key |
| AlertBuilder.PositionLastWins | src/AlertBuilder.php:374-434 | the last position set wins, and setting a position leaves the configuration alone |
| AlertBuilder.Show | src/AlertBuilder.php:444-448 | fails iff the position is PHP-empty; otherwise appends the draft configuration itself (given a usable id) to that position's bucket and no other bucket changes |
| AlertBuilder.GetPosition | src/AlertBuilder.php:436-439 | the position returned is the bucket `show` files the alert under, and `show` fails exactly when it is PHP-empty |
| AlertBuilder.ToArray | src/AlertBuilder.php:453-456 | the array returned is exactly the entry `show` appends (given a usable id), and for a well-formed builder it has style 1..4, a positive timeout, not both auto-hide and permanent, and a usable id |
| AlertBuilder.OnlyPositionSettersMovePosition | src/AlertBuilder.php:374-439 | only `position`, `renderHook` and the quick setters change what `getPosition` returns, and they leave what `toArray` returns untouched |
| AlertBuilder.ShowTwiceAppendsTwice | src/AlertBuilder.php:444-448 | showing one builder twice stores two identical entries with the same id |
| AlertBuilder.ApplyKeepsWellFormed | src/AlertBuilder.php:82-434 | each builder call keeps style in 1..4, timeout positive, auto-hide and permanence exclusive, and the id usable |
| AlertBuilder.ChainKeepsWellFormed | src/AlertBuilder.php:82-434 | the same holds after any chain of calls |
| AlertBuilder.ChainedBuilderShowsAsConfigured | src/AlertBuilder.php:61-448 | any builder made by the constructor and a chain of calls, shown at a non-empty position, is stored exactly as configured |
| AlertShortcuts.Make | src/AlertBoxManager.php:47-50 | `make` is the builder constructor |
| AlertShortcuts.FromMessage | src/AlertBoxManager.php:142-169 | a shortcut alert is `make($message)` then the severity setter: the severity, the message as title (none for `""`), the severity's default icon, all three colours from theme or palette, the default position, the given theme, a generated id and every other field at its default |
| AlertShortcuts.ErrorAlert | src/AlertBoxManager.php:150-153 | the `error` shortcut equals `make` then `error()` and has type Danger |
| AlertShortcuts.SavedToFooterScenario | src/AlertBuilder.php:429-448 | a success alert titled "Saved", moved to the footer and shown on an empty registry, is the only footer alert, with type Success, title "Saved" and the generated id |
| AlertShortcuts.ShowRaisesCountThenClearAll | tests/AlertBoxManagerTest.php:34-54 | showing a shortcut alert raises the total count by one, and clearing all makes it 0 |

## Left out

- Icon size (`iconSize`, `iconXS` … `iconXL`, an `icon_size` key): the tests expect it, but the builder has no such field or method, so it is not modelled as behaviour.
- The Blade view, the panel plugin (render-hook registration, `Config::set`), the facade's dynamic dispatch and the service provider are presentation and framework glue. The plugin's default palette enters only as a `Theme` value.
- The constructor's first read of the panel's colours is overwritten at once by the configured table, so only the configured table (the `Theme` parameter) is modelled. The private `getDefinedColors` helper is unused.
- `uniqid` is an `entropy` parameter. Uniqueness of ids is not modelled.
- The hook key strings are the framework's `PanelsRenderHook` constants, written with their Filament 3 values. Nothing proved depends on them beyond being non-empty and distinct.
- `addAlert` arrays are a typed record. Keys outside the sixteen configuration keys (which `array_merge` would keep) are not modelled. Values of the wrong PHP type are not modelled either. Example: a boolean `type`, which the loose `in_array` would let through.
- AlertStore.PositionsWithAlerts: PHP turns a position made only of decimal digits (such as `"42"`) into an integer array key, so `getPositionsWithAlerts()` and `getAlerts()` report it as the integer 42. The model keeps every key as the string given; string and integer keys are not distinguished.
- The registry is an unordered map. PHP arrays also remember the order in which positions were first used, which `getAlerts()` and `getPositionsWithAlerts()` expose. Order within a bucket is modelled.
- AlertBuilder.AutoDisappear: PHP integer overflow of `seconds * 1000` is not modelled; integers are unbounded.
- Process-wide shared state and concurrent requests are out of scope. The registry is an explicit value.

=== FILE: alert_builder.dfy ===
/** The fluent alert builder. A builder is an immutable value: every setter
    returns the next builder, and a setter that validates its argument
    returns the error instead, so a rejected call produces no new state and
    the caller keeps the builder it had. */
module AlertBuilder {
  import opened Wrappers
  import opened Text
  import opened AlertTypes
  import opened ColorFormat
  import opened AlertStore

  /** The three colours a theme entry may provide for a severity. */
  datatype ColorSlot = TitleSlot | DescriptionSlot | IconSlot

  /** The configured colour table (`alert-box.colors`), read once when the
      builder is created; any entry or slot may be missing. */
  type Theme = map<Severity, map<ColorSlot, string>>

  /** The builder's state: the draft configuration, the target position and
      the colour table captured at construction. */
  datatype Builder = Builder(config: Config, position: string, theme: Theme)

  /** The hard-coded colour used when the theme has no entry for a slot. */
  function Palette(sev: Severity, slot: ColorSlot): (r: string)
    ensures |r| == 7 && r[0] == '#' && forall i :: 1 <= i < 7 ==> IsHexDigit(r[i])
    ensures ValidateColor(r) == Ok(r)
  {
    var c :=
      match (sev, slot)
      case (Success, TitleSlot) => "#047857"
      case (Success, _) => "#10b981"
      case (Danger, TitleSlot) => "#b91c1c"
      case (Danger, _) => "#ef4444"
      case (Warning, TitleSlot) => "#b45309"
      case (Warning, _) => "#f59e0b"
      case (Info, TitleSlot) => "#1d4ed8"
      case (Info, _) => "#3b82f6";
    HasColorPrefixMatchesPattern(c);
    c
  }

  /** The theme's colour for a slot, falling back to the palette. */
  function ThemeColor(theme: Theme, sev: Severity, slot: ColorSlot): string {
    if sev in theme && slot in theme[sev] then theme[sev][slot] else Palette(sev, slot)
  }

  /** A colour a severity setter fills in passes the builder's own colour
      check unless it came from the theme, and with no theme entry the
      palette is what it uses. */
  lemma PaletteColorsAreValid(sev: Severity, slot: ColorSlot, theme: Theme)
    ensures ValidateColor(ThemeColor(theme, sev, slot)).Ok? || (sev in theme && slot in theme[sev])
    ensures sev !in theme ==> ThemeColor(theme, sev, slot) == Palette(sev, slot)
  {
  }

  /** The icon each severity setter assigns when no icon is set. */
  function DefaultIcon(sev: Severity): (r: string)
    ensures !PhpEmpty(r)
  {
    match sev
    case Success => "heroicon-o-check-circle"
    case Danger => "heroicon-o-x-circle"
    case Warning => "heroicon-o-exclamation-triangle"
    case Info => "heroicon-o-information-circle"
  }

  /** PHP's `! $icon`: no icon, or a PHP-empty one. */
  predicate IconUnset(icon: Option<string>) {
    icon.None? || PhpEmpty(icon.value)
  }

  /** What holds of every builder a caller can obtain: a card style in 1..4,
      a positive timeout, never both auto-hiding and permanent, a usable id. */
  predicate WellFormed(b: Builder) {
    && 1 <= b.config.styleType <= 4
    && b.config.timeout > 0
    && !(b.config.autoHide && b.config.permanent)
    && !PhpEmpty(b.config.id)
  }

  /** The constructor: defaults, a generated id, the default position, and a
      title only when one is given and it is not `""` (so `"0"` is kept here,
      although `Title` refuses it). */
  function New(title: Option<string>, entropy: string, theme: Theme): (b: Builder)
    ensures b.config.(id := DefaultConfig.id, title := DefaultConfig.title) == DefaultConfig
    ensures b.config.id == GeneratedId(entropy)
    ensures b.config.title.Some? <==> title.Some? && title.value != ""
    ensures b.config.title.Some? ==> b.config.title == title
    ensures b.position == HookKey(PageHeaderWidgetsAfter) && b.theme == theme
    ensures WellFormed(b)
  {
    var seeded := if title.Some? && title.value != "" then title else None;
    Builder(DefaultConfig.(id := GeneratedId(entropy), title := seeded),
            HookKey(PageHeaderWidgetsAfter), theme)
  }

  /** `title`: refuses a PHP-empty title; otherwise changes only the title. */
  function Title(b: Builder, t: string): (r: Result<Builder, Error>)
    ensures r.Err? <==> PhpEmpty(t)
    ensures r.Err? ==> r.error == EmptyTitle
    ensures r.Ok? ==> r.value.config.title == Some(t)
    ensures r.Ok? ==> r.value.(config := r.value.config.(title := b.config.title)) == b
  {
    if PhpEmpty(t) then Err(EmptyTitle) else Ok(b.(config := b.config.(title := Some(t))))
  }

  /** `description`: unvalidated; changes only the description. */
  function Description(b: Builder, d: string): (r: Builder)
    ensures r.config.description == Some(d)
    ensures r.(config := r.config.(description := b.config.description)) == b
  {
    b.(config := b.config.(description := Some(d)))
  }

  /** `message`: an alias of `description`. */
  function Message(b: Builder, m: string): (r: Builder)
    ensures r == Description(b, m)
  {
    Description(b, m)
  }

  /** `cardStyle`: accepts exactly the styles 1 to 4 and changes only the style. */
  function CardStyle(b: Builder, n: int): (r: Result<Builder, Error>)
    ensures r.Ok? <==> n in {1, 2, 3, 4}
    ensures r.Err? ==> r.error == InvalidCardStyle(n)
    ensures r.Ok? ==> r.value.config.styleType == n
    ensures r.Ok? ==> r.value.(config := r.value.config.(styleType := b.config.styleType)) == b
  {
    if 1 <= n <= 4 then Ok(b.(config := b.config.(styleType := n))) else Err(InvalidCardStyle(n))
  }

  /** `bannerStyle`: the same as `cardStyle(1)`. */
  function BannerStyle(b: Builder): (r: Builder)
    ensures CardStyle(b, 1) == Ok(r)
  {
    b.(config := b.config.(styleType := 1))
  }

  /** `cardWithBorder`: the same as `cardStyle(2)`. */
  function CardWithBorder(b: Builder): (r: Builder)
    ensures CardStyle(b, 2) == Ok(r)
  {
    b.(config := b.config.(styleType := 2))
  }

  /** `modernCard`: the same as `cardStyle(3)`. */
  function ModernCard(b: Builder): (r: Builder)
    ensures CardStyle(b, 3) == Ok(r)
  {
    b.(config := b.config.(styleType := 3))
  }

  /** `minimalistStyle`: the same as `cardStyle(4)`. */
  function MinimalistStyle(b: Builder): (r: Builder)
    ensures CardStyle(b, 4) == Ok(r)
  {
    b.(config := b.config.(styleType := 4))
  }

  /** `icon`: refuses a PHP-empty name; otherwise changes only the icon (the
      `noIcon` flag is left as it was). */
  function Icon(b: Builder, name: string): (r: Result<Builder, Error>)
    ensures r.Err? <==> PhpEmpty(name)
    ensures r.Err? ==> r.error == EmptyIcon
    ensures r.Ok? ==> r.value.config.icon == Some(name)
    ensures r.Ok? ==> r.value.(config := r.value.config.(icon := b.config.icon)) == b
  {
    if PhpEmpty(name) then Err(EmptyIcon) else Ok(b.(config := b.config.(icon := Some(name))))
  }

  /** `noIcon`: whatever the flag, clears the icon and its colour; records the flag. */
  function NoIcon(b: Builder, state: bool): (r: Builder)
    ensures r.config.icon.None? && r.config.iconColor.None? && r.config.noIcon == state
    ensures r.(config := r.config.(icon := b.config.icon, iconColor := b.config.iconColor,
                                   noIcon := b.config.noIcon)) == b
  {
    b.(config := b.config.(icon := None, noIcon := state, iconColor := None))
  }

  /** `iconColor`: stores an accepted colour unchanged, in that field only. */
  function IconColor(b: Builder, c: string): (r: Result<Builder, Error>)
    ensures r.Ok? <==> ValidateColor(c).Ok?
    ensures r.Err? ==> r.error == ValidateColor(c).error
    ensures r.Ok? ==> r.value.config.iconColor == Some(c)
    ensures r.Ok? ==> r.value.(config := r.value.config.(iconColor := b.config.iconColor)) == b
  {
    var v :- ValidateColor(c);
    Ok(b.(config := b.config.(iconColor := Some(v))))
  }

  /** `titleColor`: stores an accepted colour unchanged, in that field only. */
  function TitleColor(b: Builder, c: string): (r: Result<Builder, Error>)
    ensures r.Ok? <==> ValidateColor(c).Ok?
    ensures r.Err? ==> r.error == ValidateColor(c).error
    ensures r.Ok? ==> r.value.config.titleColor == Some(c)
    ensures r.Ok? ==> r.value.(config := r.value.config.(titleColor := b.config.titleColor)) == b
  {
    var v :- ValidateColor(c);
    Ok(b.(config := b.config.(titleColor := Some(v))))
  }

  /** `descriptionColor`: stores an accepted colour unchanged, in that field only. */
  function DescriptionColor(b: Builder, c: string): (r: Result<Builder, Error>)
    ensures r.Ok? <==> ValidateColor(c).Ok?
    ensures r.Err? ==> r.error == ValidateColor(c).error
    ensures r.Ok? ==> r.value.config.descriptionColor == Some(c)
    ensures r.Ok? ==> r.value.(config := r.value.config.(descriptionColor := b.config.descriptionColor)) == b
  {
    var v :- ValidateColor(c);
    Ok(b.(config := b.config.(descriptionColor := Some(v))))
  }

  /** `success`, `danger`, `warning` and `info`: set the type; give the
      severity's icon only when no icon is set; fill each colour only where it
      is null, from the theme or else the palette. Nothing else changes. */
  function SetSeverity(b: Builder, sev: Severity): (r: Builder)
    ensures r.config.severity == sev
    ensures IconUnset(b.config.icon) ==> r.config.icon == Some(DefaultIcon(sev))
    ensures !IconUnset(b.config.icon) ==> r.config.icon == b.config.icon
    ensures b.config.titleColor.Some? ==> r.config.titleColor == b.config.titleColor
    ensures b.config.descriptionColor.Some? ==> r.config.descriptionColor == b.config.descriptionColor
    ensures b.config.iconColor.Some? ==> r.config.iconColor == b.config.iconColor
    ensures b.config.titleColor.None? ==> r.config.titleColor == Some(ThemeColor(b.theme, sev, TitleSlot))
    ensures b.config.descriptionColor.None? ==>
              r.config.descriptionColor == Some(ThemeColor(b.theme, sev, DescriptionSlot))
    ensures b.config.iconColor.None? ==> r.config.iconColor == Some(ThemeColor(b.theme, sev, IconSlot))
    ensures r.(config := r.config.(severity := b.config.severity, icon := b.config.icon,
                                   titleColor := b.config.titleColor,
                                   descriptionColor := b.config.descriptionColor,
                                   iconColor := b.config.iconColor)) == b
  {
    var c := b.config;
    b.(config := c.(
      severity := sev,
      icon := if IconUnset(c.icon) then Some(DefaultIcon(sev)) else c.icon,
      titleColor := Some(c.titleColor.GetOr(ThemeColor(b.theme, sev, TitleSlot))),
      descriptionColor := Some(c.descriptionColor.GetOr(ThemeColor(b.theme, sev, DescriptionSlot))),
      iconColor := Some(c.iconColor.GetOr(ThemeColor(b.theme, sev, IconSlot)))))
  }

  /** `error`: an alias of `danger`. */
  function AsError(b: Builder): (r: Builder)
    ensures r == SetSeverity(b, Danger)
    ensures r.config.severity == Danger
  {
    SetSeverity(b, Danger)
  }

  /** A severity setter applied twice is applied once; a later severity
      changes the type but keeps the colours the first one filled in. */
  lemma SeveritySettersCompose(b: Builder, first: Severity, second: Severity)
    ensures SetSeverity(SetSeverity(b, first), first) == SetSeverity(b, first)
    ensures var r := SetSeverity(SetSeverity(b, first), second);
            && r.config.severity == second
            && r.config.icon == SetSeverity(b, first).config.icon
            && r.config.titleColor == SetSeverity(b, first).config.titleColor
            && r.config.descriptionColor == SetSeverity(b, first).config.descriptionColor
            && r.config.iconColor == SetSeverity(b, first).config.iconColor
  {
  }

  /** A caller's icon survives a later severity setter. */
  lemma SeverityKeepsCallersIcon(b: Builder, name: string, sev: Severity)
    requires Icon(b, name).Ok?
    ensures SetSeverity(Icon(b, name).value, sev).config.icon == Some(name)
  {
  }

  /** `canBeClose`: changes only the closeable flag. */
  function CanBeClose(b: Builder, closeable: bool): (r: Builder)
    ensures r.config.closeable == closeable
    ensures r.(config := r.config.(closeable := b.config.closeable)) == b
  {
    b.(config := b.config.(closeable := closeable))
  }

  /** `autoDisappear`: refuses a non-positive number of seconds; otherwise
      turns auto-hide on with the timeout in milliseconds and clears permanence. */
  function AutoDisappear(b: Builder, seconds: int): (r: Result<Builder, Error>)
    ensures r.Err? <==> seconds <= 0
    ensures r.Err? ==> r.error == NonPositiveTimeout
    ensures r.Ok? ==> r.value.config.autoHide && !r.value.config.permanent
    ensures r.Ok? ==> r.value.config.timeout == seconds * 1000 && r.value.config.timeout > 0
    ensures r.Ok? ==> r.value.(config := r.value.config.(autoHide := b.config.autoHide,
                                                         timeout := b.config.timeout,
                                                         permanent := b.config.permanent)) == b
  {
    if seconds <= 0 then Err(NonPositiveTimeout)
    else Ok(b.(config := b.config.(autoHide := true, timeout := seconds * 1000, permanent := false)))
  }

  /** `permanent`: records the flag; only `true` also turns auto-hide off. */
  function Permanent(b: Builder, permanent: bool): (r: Builder)
    ensures r.config.permanent == permanent
    ensures permanent ==> !r.config.autoHide
    ensures !permanent ==> r.config.autoHide == b.config.autoHide
    ensures r.(config := r.config.(permanent := b.config.permanent, autoHide := b.config.autoHide)) == b
  {
    if permanent then b.(config := b.config.(permanent := true, autoHide := false))
    else b.(config := b.config.(permanent := false))
  }

  /** `classes`: unvalidated; changes only the extra classes. */
  function Classes(b: Builder, classes: string): (r: Builder)
    ensures r.config.classes == classes
    ensures r.(config := r.config.(classes := b.config.classes)) == b
  {
    b.(config := b.config.(classes := classes))
  }

  /** `style`: unvalidated; changes only the inline style. */
  function Style(b: Builder, style: string): (r: Builder)
    ensures r.config.style == style
    ensures r.(config := r.config.(style := b.config.style)) == b
  {
    b.(config := b.config.(style := style))
  }

  /** `position` and `renderHook`: unvalidated; only the target position changes. */
  function Position(b: Builder, key: string): (r: Builder)
    ensures r.position == key
    ensures r.(position := b.position) == b
  {
    b.(position := key)
  }

  /** The quick position setters (`pageHeaderAfter`, `pageStart`,
      `sidebarNavEnd`, `topBarStart`, `pageEnd`, `footer`). */
  function AtHook(b: Builder, h: Hook): (r: Builder)
    ensures r == Position(b, HookKey(h))
    ensures !PhpEmpty(r.position)
  {
    b.(position := HookKey(h))
  }

  /** The last position set is the one used, whichever setters were called. */
  lemma PositionLastWins(b: Builder, first: string, second: string)
    ensures Position(Position(b, first), second) == Position(b, second)
    ensures Position(b, first).config == b.config
  {
  }

  /** `show`: hands the configuration to the registry under the current
      position. It fails only for a PHP-empty position, since the builder's
      type is always accepted; otherwise exactly the draft configuration is
      appended (given a usable id) and no other position changes. */
  function Show(b: Builder, s: Store, entropy: string): (r: Result<Store, Error>)
    ensures r.Err? <==> PhpEmpty(b.position)
    ensures r.Err? ==> r.error == EmptyPosition
    ensures r.Ok? && !PhpEmpty(b.config.id) ==>
              Bucket(r.value, b.position) == Bucket(s, b.position) + [b.config]
    ensures r.Ok? ==> r.value.Keys == s.Keys + {b.position}
    ensures r.Ok? ==> forall q :: q in s && q != b.position ==> r.value[q] == s[q]
  {
    SeverityNameRoundTrip(b.config.severity);
    MergeFullInput(b.config, entropy);
    AddAlert(s, b.position, FullInput(b.config), entropy)
  }

  /** `getPosition`: the bucket `show` files the alert under, and the reason
      `show` fails when it is PHP-empty. */
  function GetPosition(b: Builder): (r: string)
    ensures forall s: Store, e: string :: Show(b, s, e).Err? <==> PhpEmpty(r)
    ensures forall s: Store, e: string :: Show(b, s, e).Ok? ==> r in Show(b, s, e).value
  {
    b.position
  }

  /** `toArray`: the configuration `show` stores, which carries the builder's
      invariant when the builder is well formed. */
  function ToArray(b: Builder): (r: Config)
    ensures forall s: Store, e: string :: Show(b, s, e).Ok? && !PhpEmpty(r.id) ==>
              Bucket(Show(b, s, e).value, GetPosition(b)) == Bucket(s, GetPosition(b)) + [r]
    ensures WellFormed(b) ==>
              1 <= r.styleType <= 4 && r.timeout > 0 && !(r.autoHide && r.permanent) && !PhpEmpty(r.id)
  {
    b.config
  }

  /** Showing the same builder twice stores two identical entries (same id). */
  lemma ShowTwiceAppendsTwice(b: Builder, s: Store, e1: string, e2: string)
    requires WellFormed(b) && !PhpEmpty(b.position)
    ensures Show(b, s, e1).Ok?
    ensures Show(b, Show(b, s, e1).value, e2).Ok?
    ensures Bucket(Show(b, Show(b, s, e1).value, e2).value, b.position)
            == Bucket(s, b.position) + [b.config, b.config]
  {
  }

  /** One call of the fluent interface. */
  datatype Call =
    | SetTitle(title: string)
    | SetDescription(description: string)
    | SetMessage(message: string)
    | SetCardStyle(cardStyle: int)
    | Banner | Bordered | Modern | Minimalist
    | SetIcon(icon: string)
    | SetNoIcon(state: bool)
    | SetIconColor(iconColor: string)
    | SetTitleColor(titleColor: string)
    | SetDescriptionColor(descriptionColor: string)
    | SetType(severity: Severity)
    | SetError
    | SetCloseable(closeable: bool)
    | SetAutoDisappear(seconds: int)
    | SetPermanent(permanent: bool)
    | SetClasses(classes: string)
    | SetStyle(style: string)
    | SetPosition(key: string)
    | SetHook(hook: Hook)

  function Apply(b: Builder, call: Call): Result<Builder, Error> {
    match call
    case SetTitle(t) => Title(b, t)
    case SetDescription(d) => Ok(Description(b, d))
    case SetMessage(m) => Ok(Message(b, m))
    case SetCardStyle(n) => CardStyle(b, n)
    case Banner => Ok(BannerStyle(b))
    case Bordered => Ok(CardWithBorder(b))
    case Modern => Ok(ModernCard(b))
    case Minimalist => Ok(MinimalistStyle(b))
    case SetIcon(name) => Icon(b, name)
    case SetNoIcon(state) => Ok(NoIcon(b, state))
    case SetIconColor(c) => IconColor(b, c)
    case SetTitleColor(c) => TitleColor(b, c)
    case SetDescriptionColor(c) => DescriptionColor(b, c)
    case SetType(sev) => Ok(SetSeverity(b, sev))
    case SetError => Ok(AsError(b))
    case SetCloseable(flag) => Ok(CanBeClose(b, flag))
    case SetAutoDisappear(seconds) => AutoDisappear(b, seconds)
    case SetPermanent(flag) => Ok(Permanent(b, flag))
    case SetClasses(t) => Ok(Classes(b, t))
    case SetStyle(t) => Ok(Style(b, t))
    case SetPosition(key) => Ok(Position(b, key))
    case SetHook(h) => Ok(AtHook(b, h))
  }

  /** A chain of calls; the first rejected call's exception ends the chain. */
  function Chain(b: Builder, calls: seq<Call>): Result<Builder, Error>
    decreases |calls|
  {
    if |calls| == 0 then Ok(b)
    else
      match Apply(b, calls[0])
      case Err(e) => Err(e)
      case Ok(next) => Chain(next, calls[1..])
  }

  /** Only the position setters move the position, and they leave the
      configuration `toArray` returns untouched. */
  lemma OnlyPositionSettersMovePosition(b: Builder, call: Call)
    ensures Apply(b, call).Ok? && !call.SetPosition? && !call.SetHook? ==>
              GetPosition(Apply(b, call).value) == GetPosition(b)
    ensures call.SetPosition? ==> GetPosition(Apply(b, call).value) == call.key
    ensures call.SetHook? ==> GetPosition(Apply(b, call).value) == HookKey(call.hook)
    ensures call.SetPosition? || call.SetHook? ==> ToArray(Apply(b, call).value) == ToArray(b)
  {
  }

  /** Every single call keeps the builder well formed. */
  lemma ApplyKeepsWellFormed(b: Builder, call: Call)
    requires WellFormed(b)
    ensures Apply(b, call).Ok? ==> WellFormed(Apply(b, call).value)
  {
  }

  /** Every builder reachable by any chain of calls is well formed: its card
      style stays in 1..4, its timeout positive, auto-hide and permanence
      exclusive, and its id usable. */
  lemma {:induction false} ChainKeepsWellFormed(b: Builder, calls: seq<Call>)
    requires WellFormed(b)
    ensures Chain(b, calls).Ok? ==> WellFormed(Chain(b, calls).value)
    decreases |calls|
  {
    if |calls| > 0 {
      ApplyKeepsWellFormed(b, calls[0]);
      if Apply(b, calls[0]).Ok? {
        ChainKeepsWellFormed(Apply(b, calls[0]).value, calls[1..]);
      }
    }
  }

  /** So a builder made by `New` and configured by any chain is shown without
      error at any non-empty position, and stored exactly as configured. */
  lemma ChainedBuilderShowsAsConfigured(title: Option<string>, entropy: string, theme: Theme,
                                        calls: seq<Call>, s: Store, e: string)
    requires Chain(New(title, entropy, theme), calls).Ok?
    ensures var b := Chain(New(title, entropy, theme), calls).value;
            !PhpEmpty(b.position) ==>
              Show(b, s, e).Ok? && Bucket(Show(b, s, e).value, b.position) == Bucket(s, b.position) + [b.config]
  {
    ChainKeepsWellFormed(New(title, entropy, theme), calls);
  }
}

=== FILE: alert_shortcuts.dfy ===
/** The manager's static entry points that create builders: `make` and the
    one-call shortcuts `success`, `error`, `warning` and `info`. */
module AlertShortcuts {
  import opened Wrappers
  import opened Text
  import opened AlertTypes
  import opened AlertStore
  import opened AlertBuilder

  /** `make`: a fresh builder, titled when a non-empty title is given. */
  function Make(title: Option<string>, entropy: string, theme: Theme): (b: Builder)
    ensures b == New(title, entropy, theme)
  {
    New(title, entropy, theme)
  }

  /** `success`, `warning` and `info` (and `error` with Danger): a fresh
      builder titled with the message, then the severity setter. */
  function FromMessage(sev: Severity, message: string, entropy: string, theme: Theme): (b: Builder)
    ensures b.config.severity == sev
    ensures b.config.title == if message == "" then None else Some(message)
    ensures b.config.description.None?
    ensures b.config.icon == Some(DefaultIcon(sev))
    ensures b.config.titleColor == Some(ThemeColor(theme, sev, TitleSlot))
    ensures b.config.descriptionColor == Some(ThemeColor(theme, sev, DescriptionSlot))
    ensures b.config.iconColor == Some(ThemeColor(theme, sev, IconSlot))
    ensures b.position == HookKey(PageHeaderWidgetsAfter)
    ensures b.theme == theme
    ensures b.config.(severity := Info, title := None, icon := None, titleColor := None,
                      descriptionColor := None, iconColor := None)
            == DefaultConfig.(id := GeneratedId(entropy))
    ensures WellFormed(b)
  {
    SetSeverity(Make(Some(message), entropy, theme), sev)
  }

  /** The `error` shortcut yields a Danger alert, exactly like `make` then `danger`. */
  function ErrorAlert(message: string, entropy: string, theme: Theme): (b: Builder)
    ensures b == AsError(Make(Some(message), entropy, theme))
    ensures b.config.severity == Danger
  {
    FromMessage(Danger, message, entropy, theme)
  }

  /** A success alert titled "Saved", sent to the footer and shown on an empty
      registry, is the only alert there, stored as Success with that title and
      a generated id. */
  lemma SavedToFooterScenario(entropy: string, theme: Theme, e: string)
    ensures var b := AtHook(FromMessage(Success, "Saved", entropy, theme), Footer);
            var r := Show(b, ClearAll(), e);
            && r.Ok?
            && |Bucket(r.value, HookKey(Footer))| == 1
            && Bucket(r.value, HookKey(Footer))[0].severity == Success
            && Bucket(r.value, HookKey(Footer))[0].title == Some("Saved")
            && Bucket(r.value, HookKey(Footer))[0].id == GeneratedId(entropy)
  {
    var b := AtHook(FromMessage(Success, "Saved", entropy, theme), Footer);
    assert !PhpEmpty(b.config.id);
  }

  /** Showing any shortcut alert raises the total count by one, and clearing
      everything afterwards brings it to zero. */
  lemma ShowRaisesCountThenClearAll(sev: Severity, message: string, entropy: string, theme: Theme,
                                    s: Store, e: string)
    ensures var r := Show(FromMessage(sev, message, entropy, theme), s, e);
            r.Ok? && SumCounts(r.value) == SumCounts(s) + 1
    ensures SumCounts(ClearAll()) == 0
  {
    var b := FromMessage(sev, message, entropy, theme);
    SeverityNameRoundTrip(b.config.severity);
    AddAlertRaisesTotal(s, b.position, FullInput(b.config), e);
  }
}

=== FILE: alert_store.dfy ===
/** The position-keyed alert registry (the static `$alerts` array of the
    manager), modelled as an explicit state value: each operation takes the
    current registry and returns the next one. */
module AlertStore {
  import opened Wrappers
  import opened Text
  import opened AlertTypes

  /** Position key -> the alerts added there, in insertion order. */
  type Store = map<string, seq<Config>>

  /** The `array $config` a caller hands to `addAlert`: each field is `None`
      when the key is absent. A nullable field is `Some(None)` when the key is
      present with the value null. */
  datatype AlertInput = AlertInput(
    id: Option<string>,
    severity: Option<string>,
    title: Option<Option<string>>,
    description: Option<Option<string>>,
    styleType: Option<int>,
    closeable: Option<bool>,
    autoHide: Option<bool>,
    timeout: Option<int>,
    permanent: Option<bool>,
    noIcon: Option<bool>,
    icon: Option<Option<string>>,
    iconColor: Option<Option<string>>,
    titleColor: Option<Option<string>>,
    descriptionColor: Option<Option<string>>,
    classes: Option<string>,
    style: Option<string>
  )

  /** An array holding only a `type` key. */
  function TypeOnly(t: string): AlertInput {
    AlertInput(None, Some(t), None, None, None, None, None, None,
               None, None, None, None, None, None, None, None)
  }

  /** The complete array of a finished configuration, as the builder hands it over. */
  function FullInput(c: Config): AlertInput {
    AlertInput(Some(c.id), Some(SeverityName(c.severity)), Some(c.title), Some(c.description),
               Some(c.styleType), Some(c.closeable), Some(c.autoHide), Some(c.timeout),
               Some(c.permanent), Some(c.noIcon), Some(c.icon), Some(c.iconColor),
               Some(c.titleColor), Some(c.descriptionColor), Some(c.classes), Some(c.style))
  }

  /** The registry invariant: every bucket present holds at least one alert. */
  predicate BucketsNonEmpty(s: Store) {
    forall p :: p in s ==> |s[p]| > 0
  }

  /** The alerts at one position, or none when the position was never used. */
  function Bucket(s: Store, p: string): seq<Config> {
    if p in s then s[p] else []
  }

  /** The entry stored for an accepted array: the defaults overridden by every
      key the caller supplied, a PHP-empty id replaced by a generated one, and
      the type already read as a severity (so "error" has become Danger). */
  function MergeWithDefaults(input: AlertInput, severity: Severity, entropy: string): (c: Config)
    ensures c.severity == severity
    ensures !PhpEmpty(c.id)
    ensures input.id.Some? && !PhpEmpty(input.id.value) ==> c.id == input.id.value
    ensures PhpEmpty(input.id.GetOr(DefaultConfig.id)) ==> c.id == GeneratedId(entropy)
  {
    var id := input.id.GetOr(DefaultConfig.id);
    Config(
      id := if PhpEmpty(id) then GeneratedId(entropy) else id,
      severity := severity,
      title := input.title.GetOr(DefaultConfig.title),
      description := input.description.GetOr(DefaultConfig.description),
      styleType := input.styleType.GetOr(DefaultConfig.styleType),
      closeable := input.closeable.GetOr(DefaultConfig.closeable),
      autoHide := input.autoHide.GetOr(DefaultConfig.autoHide),
      timeout := input.timeout.GetOr(DefaultConfig.timeout),
      permanent := input.permanent.GetOr(DefaultConfig.permanent),
      noIcon := input.noIcon.GetOr(DefaultConfig.noIcon),
      icon := input.icon.GetOr(DefaultConfig.icon),
      iconColor := input.iconColor.GetOr(DefaultConfig.iconColor),
      titleColor := input.titleColor.GetOr(DefaultConfig.titleColor),
      descriptionColor := input.descriptionColor.GetOr(DefaultConfig.descriptionColor),
      classes := input.classes.GetOr(DefaultConfig.classes),
      style := input.style.GetOr(DefaultConfig.style)
    )
  }

  /** A complete array with a usable id is stored exactly as given. */
  lemma MergeFullInput(c: Config, entropy: string)
    ensures !PhpEmpty(c.id) ==> MergeWithDefaults(FullInput(c), c.severity, entropy) == c
    ensures PhpEmpty(c.id) ==> MergeWithDefaults(FullInput(c), c.severity, entropy) == c.(id := GeneratedId(entropy))
  {
  }

  /** An array with only a type becomes the default configuration with that
      severity and a generated id. */
  lemma MergeTypeOnly(t: string, severity: Severity, entropy: string)
    ensures MergeWithDefaults(TypeOnly(t), severity, entropy)
            == DefaultConfig.(id := GeneratedId(entropy), severity := severity)
  {
  }

  /** `array_merge` lets every key the caller supplies override the default:
      supplying a nullable key changes that field of the entry to exactly the
      supplied value, null included, and leaves every other field as it was. */
  lemma MergeNullableKeyOverrides(input: AlertInput, sev: Severity, e: string, v: Option<string>)
    ensures MergeWithDefaults(input.(title := Some(v)), sev, e)
            == MergeWithDefaults(input, sev, e).(title := v)
    ensures MergeWithDefaults(input.(description := Some(v)), sev, e)
            == MergeWithDefaults(input, sev, e).(description := v)
    ensures MergeWithDefaults(input.(icon := Some(v)), sev, e)
            == MergeWithDefaults(input, sev, e).(icon := v)
    ensures MergeWithDefaults(input.(iconColor := Some(v)), sev, e)
            == MergeWithDefaults(input, sev, e).(iconColor := v)
    ensures MergeWithDefaults(input.(titleColor := Some(v)), sev, e)
            == MergeWithDefaults(input, sev, e).(titleColor := v)
    ensures MergeWithDefaults(input.(descriptionColor := Some(v)), sev, e)
            == MergeWithDefaults(input, sev, e).(descriptionColor := v)
  {
  }

  /** The same for the integer and boolean keys. */
  lemma MergeScalarKeyOverrides(input: AlertInput, sev: Severity, e: string, n: int, flag: bool)
    ensures MergeWithDefaults(input.(styleType := Some(n)), sev, e)
            == MergeWithDefaults(input, sev, e).(styleType := n)
    ensures MergeWithDefaults(input.(timeout := Some(n)), sev, e)
            == MergeWithDefaults(input, sev, e).(timeout := n)
    ensures MergeWithDefaults(input.(closeable := Some(flag)), sev, e)
            == MergeWithDefaults(input, sev, e).(closeable := flag)
    ensures MergeWithDefaults(input.(autoHide := Some(flag)), sev, e)
            == MergeWithDefaults(input, sev, e).(autoHide := flag)
    ensures MergeWithDefaults(input.(permanent := Some(flag)), sev, e)
            == MergeWithDefaults(input, sev, e).(permanent := flag)
    ensures MergeWithDefaults(input.(noIcon := Some(flag)), sev, e)
            == MergeWithDefaults(input, sev, e).(noIcon := flag)
  {
  }

  /** The same for the string keys: `classes` and `style` override their
      field, an `id` overrides the id unless it is PHP-empty (then a generated
      one is used), and the raw `type` token itself never reaches the entry,
      only the severity it was read as. Starting from `MergeTypeOnly` (no key
      but the type) and supplying the keys one at a time, these lemmas fix the
      entry for every partial array. */
  lemma MergeTextKeyOverrides(input: AlertInput, sev: Severity, e: string, text: string)
    ensures MergeWithDefaults(input.(id := Some(text)), sev, e)
            == MergeWithDefaults(input, sev, e).(id := if PhpEmpty(text) then GeneratedId(e) else text)
    ensures MergeWithDefaults(input.(classes := Some(text)), sev, e)
            == MergeWithDefaults(input, sev, e).(classes := text)
    ensures MergeWithDefaults(input.(style := Some(text)), sev, e)
            == MergeWithDefaults(input, sev, e).(style := text)
    ensures MergeWithDefaults(input.(severity := Some(text)), sev, e) == MergeWithDefaults(input, sev, e)
  {
  }

  /** `addAlert`: rejects a PHP-empty position, then a missing or unknown
      `type`; otherwise appends one merged entry to the end of the position's
      bucket, creating the bucket when absent. */
  function AddAlert(s: Store, position: string, input: AlertInput, entropy: string): (r: Result<Store, Error>)
    ensures r.Err? <==> PhpEmpty(position) || input.severity.None? || input.severity.value !in AcceptedTypes
    ensures PhpEmpty(position) ==> r == Err(EmptyPosition)
    ensures !PhpEmpty(position) && r.Err? ==> r.error == InvalidType
    ensures r.Ok? ==> r.value.Keys == s.Keys + {position}
    ensures r.Ok? ==> |r.value[position]| == |Bucket(s, position)| + 1
    ensures r.Ok? ==> r.value[position][..|Bucket(s, position)|] == Bucket(s, position)
    ensures r.Ok? ==> forall q :: q in s && q != position ==> r.value[q] == s[q]
  {
    if PhpEmpty(position) then Err(EmptyPosition)
    else if input.severity.None? then Err(InvalidType)
    else match ParseSeverity(input.severity.value)
      case None => Err(InvalidType)
      case Some(sev) =>
        Ok(s[position := Bucket(s, position) + [MergeWithDefaults(input, sev, entropy)]])
  }

  /** The entry a successful add appends is the merged configuration, with
      "error" normalised to Danger. */
  lemma AddAlertAppendsMergedEntry(s: Store, position: string, input: AlertInput, entropy: string)
    requires AddAlert(s, position, input, entropy).Ok?
    ensures input.severity.Some? && ParseSeverity(input.severity.value).Some?
    ensures var s' := AddAlert(s, position, input, entropy).value;
            var sev := ParseSeverity(input.severity.value).value;
            var last := s'[position][|s'[position]| - 1];
            && last == MergeWithDefaults(input, sev, entropy)
            && (input.severity.value == "error" ==> last.severity == Danger)
            && (input.severity.value != "error" ==> SeverityName(last.severity) == input.severity.value)
  {
  }

  /** Adding keeps every bucket non-empty. */
  lemma AddAlertKeepsBucketsNonEmpty(s: Store, position: string, input: AlertInput, entropy: string)
    requires BucketsNonEmpty(s)
    ensures var r := AddAlert(s, position, input, entropy);
            r.Ok? ==> BucketsNonEmpty(r.value)
  {
  }

  /** What `getAlerts` returns: one bucket for a position, the whole registry without one. */
  datatype Alerts = AtPosition(alerts: seq<Config>) | Everywhere(byPosition: Store)

  /** `getAlerts`: reads without changing the registry. */
  function GetAlerts(s: Store, position: Option<string>): (r: Alerts)
    ensures position.None? <==> r.Everywhere?
    ensures position.None? ==> r.byPosition == s
    ensures position.Some? && position.value !in s ==> r.alerts == []
    ensures position.Some? && position.value in s ==> r.alerts == s[position.value]
  {
    match position
    case None => Everywhere(s)
    case Some(p) => AtPosition(Bucket(s, p))
  }

  /** After an add, the added position reads as its old bucket plus the new
      entry, and every other position reads as before. */
  lemma GetAlertsAfterAdd(s: Store, position: string, input: AlertInput, entropy: string, q: string)
    requires AddAlert(s, position, input, entropy).Ok?
    ensures var s' := AddAlert(s, position, input, entropy).value;
            var sev := ParseSeverity(input.severity.value).value;
            GetAlerts(s', Some(q)).alerts
            == if q == position then GetAlerts(s, Some(q)).alerts + [MergeWithDefaults(input, sev, entropy)]
               else GetAlerts(s, Some(q)).alerts
  {
  }

  /** `getPositionsWithAlerts`: the positions whose bucket is non-empty. */
  function PositionsWithAlerts(s: Store): (r: set<string>)
    ensures r <= s.Keys
    ensures forall p :: p in r <==> HasAlerts(s, p)
  {
    set p | p in s && |s[p]| > 0
  }

  /** `hasAlerts`: the position's alerts, as `getAlerts` returns them, are not empty. */
  function HasAlerts(s: Store, position: string): (r: bool)
    ensures r <==> GetAlerts(s, Some(position)).alerts != []
  {
    position in s && |s[position]| > 0
  }

  /** Under the invariant the positions with alerts are exactly the keys, and
      a position has alerts exactly when it is a key. */
  lemma NonEmptyBucketsAreKeys(s: Store, position: string)
    requires BucketsNonEmpty(s)
    ensures PositionsWithAlerts(s) == s.Keys
    ensures HasAlerts(s, position) <==> position in s
    ensures HasAlerts(s, position) <==> position in PositionsWithAlerts(s)
  {
  }

  /** The total number of stored alerts, bucket by bucket. */
  ghost function SumCounts(s: Store): nat
    decreases s.Keys
  {
    if s == map[] then 0
    else
      var p :| p in s;
      |s[p]| + SumCounts(s - {p})
  }

  /** The total may be split at any position. */
  lemma {:induction false} SumCountsRemove(s: Store, q: string)
    requires q in s
    ensures SumCounts(s) == |s[q]| + SumCounts(s - {q})
    decreases s.Keys
  {
    var p :| p in s && SumCounts(s) == |s[p]| + SumCounts(s - {p});
    if p != q {
      SumCountsRemove(s - {p}, q);
      SumCountsRemove(s - {q}, p);
      assert s - {p} - {q} == s - {q} - {p};
    } else {
      assert s - {p} == s - {q};
    }
  }

  /** `getAlertCount`: one bucket's length for a position, the total without one. */
  method GetAlertCount(s: Store, position: Option<string>) returns (n: nat)
    ensures position.Some? ==> n == |Bucket(s, position.value)|
    ensures position.None? ==> n == SumCounts(s)
  {
    if position.Some? {
      return |Bucket(s, position.value)|;
    }
    n := 0;
    var rest := s;
    while rest != map[]
      invariant n + SumCounts(rest) == SumCounts(s)
      decreases rest.Keys
    {
      var p :| p in rest;
      SumCountsRemove(rest, p);
      n := n + |rest[p]|;
      rest := rest - {p};
    }
  }

  /** A successful add raises the total by exactly one. */
  lemma {:induction false} AddAlertRaisesTotal(s: Store, position: string, input: AlertInput, entropy: string)
    requires AddAlert(s, position, input, entropy).Ok?
    ensures SumCounts(AddAlert(s, position, input, entropy).value) == SumCounts(s) + 1
  {
    var s' := AddAlert(s, position, input, entropy).value;
    SumCountsRemove(s', position);
    if position in s {
      SumCountsRemove(s, position);
      assert s' - {position} == s - {position};
    } else {
      assert s' - {position} == s;
    }
  }

  /** `clearAlerts`: drops one position's bucket; every other bucket stays. */
  function ClearAlerts(s: Store, position: string): (r: Store)
    ensures r.Keys == s.Keys - {position}
    ensures forall q :: q in r ==> r[q] == s[q]
  {
    s - {position}
  }

  /** Clearing is idempotent, a no-op on an unused position, keeps the
      invariant, and lowers the total by the cleared bucket's length. */
  lemma ClearAlertsFacts(s: Store, position: string)
    ensures ClearAlerts(ClearAlerts(s, position), position) == ClearAlerts(s, position)
    ensures position !in s ==> ClearAlerts(s, position) == s
    ensures BucketsNonEmpty(s) ==> BucketsNonEmpty(ClearAlerts(s, position))
    ensures SumCounts(ClearAlerts(s, position)) == SumCounts(s) - |Bucket(s, position)|
  {
    if position in s {
      SumCountsRemove(s, position);
    } else {
      assert s - {position} == s;
    }
  }

  /** `clearAll`. */
  function ClearAll(): (r: Store)
    ensures BucketsNonEmpty(r) && SumCounts(r) == 0
    ensures forall p :: !HasAlerts(r, p)
  {
    map[]
  }

  /** One call on the registry; a rejected add is caught and changes nothing. */
  datatype StoreCall =
    | Add(position: string, input: AlertInput, entropy: string)
    | Clear(position: string)
    | ClearEverything

  function Step(s: Store, call: StoreCall): Store {
    match call
    case Add(p, input, e) =>
      (match AddAlert(s, p, input, e)
       case Ok(s') => s'
       case Err(_) => s)
    case Clear(p) => ClearAlerts(s, p)
    case ClearEverything => ClearAll()
  }

  function Run(s: Store, calls: seq<StoreCall>): Store
    decreases |calls|
  {
    if |calls| == 0 then s else Run(Step(s, calls[0]), calls[1..])
  }

  /** Every registry reachable from the empty one by any calls keeps every
      bucket non-empty: buckets only appear through an append. */
  lemma {:induction false} RunKeepsBucketsNonEmpty(s: Store, calls: seq<StoreCall>)
    requires BucketsNonEmpty(s)
    ensures BucketsNonEmpty(Run(s, calls))
    decreases |calls|
  {
    if |calls| > 0 {
      var call := calls[0];
      match call {
        case Add(p, input, e) => AddAlertKeepsBucketsNonEmpty(s, p, input, e);
        case Clear(p) => ClearAlertsFacts(s, p);
        case ClearEverything =>
      }
      RunKeepsBucketsNonEmpty(Step(s, call), calls[1..]);
    }
  }

  /** A registry scenario: an "error" add is stored as
      Danger, a "bogus" add is refused and leaves the count unchanged. */
  lemma RegistryScenario(entropy: string)
    ensures AddAlert(ClearAll(), "p", TypeOnly("error"), entropy).Ok?
    ensures AddAlert(ClearAll(), "p", TypeOnly("error"), entropy).value["p"][0].severity == Danger
    ensures AddAlert(ClearAll(), "p", TypeOnly("bogus"), entropy) == Err(InvalidType)
    ensures AddAlert(ClearAll(), "", TypeOnly("info"), entropy) == Err(EmptyPosition)
    ensures AddAlert(ClearAll(), "0", TypeOnly("info"), entropy) == Err(EmptyPosition)
  {
  }
}

=== FILE: alert_types.dfy ===
/** The data shared by the alert builder and the alert registry: the four
    severities, the flat alert configuration record with its defaults, the
    errors the code raises and the render-hook positions it knows by name. */
module AlertTypes {
  import opened Wrappers
  import opened Text

  /** The canonical alert types; the input token "error" is an alias of Danger. */
  datatype Severity = Info | Success | Warning | Danger

  /** The `type` token stored for each severity. */
  function SeverityName(s: Severity): string {
    match s
    case Info => "info"
    case Success => "success"
    case Warning => "warning"
    case Danger => "danger"
  }

  /** The `type` tokens the registry accepts. */
  const AcceptedTypes: seq<string> := ["info", "success", "warning", "danger", "error"]

  /** Reads a `type` token, normalising the alias "error" to Danger. */
  function ParseSeverity(t: string): (r: Option<Severity>)
    ensures r.Some? <==> t in AcceptedTypes
    ensures t == "error" ==> r == Some(Danger)
    ensures r.Some? && t != "error" ==> SeverityName(r.value) == t
  {
    if t == "error" then Some(Danger)
    else if t == "info" then Some(Info)
    else if t == "success" then Some(Success)
    else if t == "warning" then Some(Warning)
    else if t == "danger" then Some(Danger)
    else None
  }

  /** Every stored token reads back as its severity, so no two severities share a token. */
  lemma SeverityNameRoundTrip(s: Severity)
    ensures ParseSeverity(SeverityName(s)) == Some(s)
    ensures SeverityName(s) in AcceptedTypes && SeverityName(s) != "error"
  {
  }

  /** One alert's configuration: the `$config` array of the builder and each
      entry of the registry. The `type` key is the `severity` field. */
  datatype Config = Config(
    id: string,
    severity: Severity,
    title: Option<string>,
    description: Option<string>,
    styleType: int,
    closeable: bool,
    autoHide: bool,
    timeout: int,
    permanent: bool,
    noIcon: bool,
    icon: Option<string>,
    iconColor: Option<string>,
    titleColor: Option<string>,
    descriptionColor: Option<string>,
    classes: string,
    style: string
  )

  /** The defaults a new builder starts from and the registry merges under
      every added configuration (both files spell out the same record). */
  const DefaultConfig: Config := Config(
    id := "",
    severity := Info,
    title := None,
    description := None,
    styleType := 1,
    closeable := true,
    autoHide := false,
    timeout := 5000,
    permanent := false,
    noIcon := false,
    icon := None,
    iconColor := None,
    titleColor := None,
    descriptionColor := None,
    classes := "",
    style := ""
  )

  /** The id `uniqid('alert_', true)` yields; its random part is the parameter. */
  function GeneratedId(entropy: string): (r: string)
    ensures !PhpEmpty(r)
    ensures |r| >= 6 && r[..6] == "alert_" && r[6..] == entropy
  {
    "alert_" + entropy
  }

  /** The `InvalidArgumentException`s the builder and the registry raise. */
  datatype Error =
    | EmptyTitle
    | InvalidCardStyle(style: int)
    | EmptyIcon
    | EmptyColor
    | InvalidColor(color: string)
    | NonPositiveTimeout
    | EmptyPosition
    | InvalidType

  const CardStylePrefix: string := "Card style must be between 1 and 4, got "
  const InvalidColorPrefix: string := "Invalid color format: "
  const EmptyTitleMessage: string := "Title cannot be empty"
  const EmptyIconMessage: string := "Icon cannot be empty"
  const EmptyColorMessage: string := "Color cannot be empty"
  const NonPositiveTimeoutMessage: string := "Timeout must be greater than 0"
  const EmptyPositionMessage: string := "Position cannot be empty"
  const InvalidTypeMessage: string := "Invalid alert type"

  /** The exception message of each error. */
  function ErrorMessage(e: Error): (r: string)
    ensures |r| > 0
    ensures e.InvalidCardStyle? ==>
              |r| > |CardStylePrefix| && r[..|CardStylePrefix|] == CardStylePrefix
    ensures e.InvalidColor? ==>
              |r| >= |InvalidColorPrefix| && r[..|InvalidColorPrefix|] == InvalidColorPrefix
              && r[|InvalidColorPrefix|..] == e.color
    ensures e.EmptyTitle? ==> r == EmptyTitleMessage
    ensures e.EmptyIcon? ==> r == EmptyIconMessage
    ensures e.EmptyColor? ==> r == EmptyColorMessage
    ensures e.NonPositiveTimeout? ==> r == NonPositiveTimeoutMessage
    ensures e.EmptyPosition? ==> r == EmptyPositionMessage
    ensures e.InvalidType? ==> r == InvalidTypeMessage
  {
    match e
    case EmptyTitle => EmptyTitleMessage
    case InvalidCardStyle(n) => CardStylePrefix + IntToDecimal(n)
    case EmptyIcon => EmptyIconMessage
    case EmptyColor => EmptyColorMessage
    case InvalidColor(c) => InvalidColorPrefix + c
    case NonPositiveTimeout => NonPositiveTimeoutMessage
    case EmptyPosition => EmptyPositionMessage
    case InvalidType => InvalidTypeMessage
  }

  /** The card-style message reports the rejected number: what follows the
      fixed prefix reads back as exactly that number. */
  lemma CardStyleMessageReportsValue(n: int)
    ensures var m := ErrorMessage(InvalidCardStyle(n));
            |m| > |CardStylePrefix| && m[..|CardStylePrefix|] == CardStylePrefix
            && ParseDecimal(m[|CardStylePrefix|..]) == Some(n)
  {
    var m := ErrorMessage(InvalidCardStyle(n));
    assert m[|CardStylePrefix|..] == IntToDecimal(n);
    IntToDecimalRoundTrip(n);
  }

  /** Distinct errors have distinct messages: a message identifies the
      exception raised and the value it reports. */
  lemma ErrorMessageInjective(e1: Error, e2: Error)
    ensures ErrorMessage(e1) == ErrorMessage(e2) ==> e1 == e2
  {
    var m1, m2 := ErrorMessage(e1), ErrorMessage(e2);
    if m1 == m2 {
      if e1.InvalidCardStyle? && e2.InvalidCardStyle? {
        CardStyleMessageReportsValue(e1.style);
        CardStyleMessageReportsValue(e2.style);
      } else if e1.InvalidColor? || e2.InvalidColor? {
        assert m1[..2] == m2[..2];
        if |m1| > 8 { assert m1[8] == m2[8]; }
      } else {
        assert m1[2] == m2[2];
        assert m1[..9] == m2[..9];
      }
    }
  }

  /** The render-hook positions the builder offers quick setters for. */
  datatype Hook = PageHeaderWidgetsAfter | PageStart | SidebarNavEnd | TopbarStart | PageEnd | Footer

  /** The framework's key for each hook (Filament 3 `PanelsRenderHook` values). */
  function HookKey(h: Hook): (k: string)
    ensures !PhpEmpty(k)
  {
    match h
    case PageHeaderWidgetsAfter => "panels::page.header-widgets.after"
    case PageStart => "panels::page.start"
    case SidebarNavEnd => "panels::sidebar.nav.end"
    case TopbarStart => "panels::topbar.start"
    case PageEnd => "panels::page.end"
    case Footer => "panels::footer"
  }

  /** Distinct hooks name distinct registry buckets. */
  lemma HookKeysDistinct(h1: Hook, h2: Hook)
    ensures HookKey(h1) == HookKey(h2) ==> h1 == h2
  {
  }
}

=== FILE: color_format.dfy ===
/** The colour check of the builder: a colour is accepted when it is not
    PHP-empty and the pattern `^(#[0-9a-fA-F]{3,8}|rgb|hsl|[a-zA-Z]+)` matches
    a prefix of it. The pattern has no end anchor, so only a prefix matters. */
module ColorFormat {
  import opened Wrappers
  import opened Text
  import opened AlertTypes

  /** The direct test: a letter first, or `#` followed by at least three hex digits. */
  predicate HasColorPrefix(c: string) {
    |c| >= 1 &&
    (IsAsciiLetter(c[0]) ||
     (|c| >= 4 && c[0] == '#' && IsHexDigit(c[1]) && IsHexDigit(c[2]) && IsHexDigit(c[3])))
  }

  /** `#` followed by `k` hex digits is a prefix of `c`. */
  predicate HexRun(c: string, k: nat) {
    |c| > k && c[0] == '#' && forall i :: 1 <= i <= k ==> IsHexDigit(c[i])
  }

  /** `k >= 1` ASCII letters are a prefix of `c`. */
  predicate LetterRun(c: string, k: nat) {
    1 <= k <= |c| && forall i :: 0 <= i < k ==> IsAsciiLetter(c[i])
  }

  /** The pattern, alternative by alternative, anchored only at the start. */
  ghost predicate PatternMatchesPrefix(c: string) {
    (exists k :: 3 <= k <= 8 && HexRun(c, k))
    || (|c| >= 3 && c[..3] == "rgb")
    || (|c| >= 3 && c[..3] == "hsl")
    || (exists k :: LetterRun(c, k))
  }

  /** The direct test agrees with the pattern on every string. */
  lemma HasColorPrefixMatchesPattern(c: string)
    ensures HasColorPrefix(c) <==> PatternMatchesPrefix(c)
  {
    if HasColorPrefix(c) {
      if IsAsciiLetter(c[0]) {
        assert LetterRun(c, 1);
      } else {
        assert HexRun(c, 3);
      }
    }
    if PatternMatchesPrefix(c) {
      if exists k :: 3 <= k <= 8 && HexRun(c, k) {
        var k :| 3 <= k <= 8 && HexRun(c, k);
        assert IsHexDigit(c[1]) && IsHexDigit(c[2]) && IsHexDigit(c[3]);
      } else if |c| >= 3 && (c[..3] == "rgb" || c[..3] == "hsl") {
        assert c[0] == c[..3][0];
      } else {
        var k :| LetterRun(c, k);
        assert IsAsciiLetter(c[0]);
      }
    }
  }

  /** `validateColor`: the colour itself when accepted, otherwise the error raised. */
  function ValidateColor(c: string): (r: Result<string, Error>)
    ensures r.Ok? <==> !PhpEmpty(c) && PatternMatchesPrefix(c)
    ensures r.Ok? ==> r.value == c
    ensures PhpEmpty(c) ==> r == Err(EmptyColor)
    ensures !PhpEmpty(c) && !PatternMatchesPrefix(c) ==> r == Err(InvalidColor(c))
  {
    HasColorPrefixMatchesPattern(c);
    if PhpEmpty(c) then Err(EmptyColor)
    else if HasColorPrefix(c) then Ok(c)
    else Err(InvalidColor(c))
  }

  /** The formats the colour setters are documented to take, and two they refuse. */
  lemma ColorExamples()
    ensures ValidateColor("#fff") == Ok("#fff")
    ensures ValidateColor("#112233") == Ok("#112233")
    ensures ValidateColor("rgb(1,2,3)") == Ok("rgb(1,2,3)")
    ensures ValidateColor("hsl(0,0%,0%)") == Ok("hsl(0,0%,0%)")
    ensures ValidateColor("red") == Ok("red")
    ensures ValidateColor("123") == Err(InvalidColor("123"))
    ensures ValidateColor("#ff") == Err(InvalidColor("#ff"))
    ensures ValidateColor("") == Err(EmptyColor)
    ensures ValidateColor("0") == Err(EmptyColor)
  {
    assert !HasColorPrefix("123");
    assert !HasColorPrefix("#ff");
    HasColorPrefixMatchesPattern("123");
    HasColorPrefixMatchesPattern("#ff");
  }
}

=== FILE: text.dfy ===
/** Character classes and string predicates the alert code relies on:
    PHP's notion of an "empty" string, ASCII letters and hex digits, and the
    decimal rendering of integers used in error messages. */
module Text {
  import opened Wrappers

  /** PHP's `empty()` on a string: true for `""` and for `"0"`. */
  predicate PhpEmpty(s: string) {
    s == "" || s == "0"
  }

  predicate IsAsciiLetter(c: char) {
    ('a' <= c <= 'z') || ('A' <= c <= 'Z')
  }

  predicate IsHexDigit(c: char) {
    ('0' <= c <= '9') || ('a' <= c <= 'f') || ('A' <= c <= 'F')
  }

  predicate IsDigit(c: char) {
    '0' <= c <= '9'
  }

  predicate AllDigits(s: string) {
    forall i :: 0 <= i < |s| ==> IsDigit(s[i])
  }

  function DigitChar(d: nat): (c: char)
    requires d < 10
    ensures IsDigit(c) && (c as int) - ('0' as int) == d
  {
    (('0' as int) + d) as char
  }

  /** The decimal digits of `n`, most significant first, without leading zeros. */
  function NatToDecimal(n: nat): (r: string)
    ensures |r| >= 1 && AllDigits(r)
    ensures r[0] == '0' ==> n == 0
    decreases n
  {
    if n < 10 then [DigitChar(n)] else NatToDecimal(n / 10) + [DigitChar(n % 10)]
  }

  /** `sprintf('%d', n)`: an optional minus sign followed by the digits of |n|. */
  function IntToDecimal(n: int): (r: string)
    ensures |r| >= 1
    ensures n < 0 <==> r[0] == '-'
  {
    if n < 0 then "-" + NatToDecimal(-n) else NatToDecimal(n)
  }

  /** The value of a string of decimal digits (the reading direction). */
  function DigitsValue(s: string): nat
    requires AllDigits(s)
    decreases |s|
  {
    if |s| == 0 then 0
    else DigitsValue(s[..|s| - 1]) * 10 + ((s[|s| - 1] as int) - ('0' as int))
  }

  /** Reads back a decimal integer as written by `IntToDecimal`. */
  function ParseDecimal(s: string): Option<int> {
    if |s| >= 2 && s[0] == '-' && AllDigits(s[1..]) then Some(0 - DigitsValue(s[1..]) as int)
    else if |s| >= 1 && AllDigits(s) then Some(DigitsValue(s))
    else None
  }

  lemma {:induction false} NatToDecimalRoundTrip(n: nat)
    ensures DigitsValue(NatToDecimal(n)) == n
    decreases n
  {
    if n >= 10 {
      var s := NatToDecimal(n);
      var prefix := NatToDecimal(n / 10);
      assert s[..|s| - 1] == prefix;
      NatToDecimalRoundTrip(n / 10);
    }
  }

  /** Every integer's decimal rendering reads back as that integer. */
  lemma IntToDecimalRoundTrip(n: int)
    ensures ParseDecimal(IntToDecimal(n)) == Some(n)
  {
    var s := IntToDecimal(n);
    if n < 0 {
      assert s[1..] == NatToDecimal(-n);
      NatToDecimalRoundTrip(-n);
    } else {
      NatToDecimalRoundTrip(n);
    }
  }
}

=== FILE: wrappers.dfy ===
/** Failure-carrying datatypes shared by the alert model. */
module Wrappers {

  /** A value that may be absent; stands for PHP's nullable values and for
      array keys that were not supplied. */
  datatype Option<+T> = None | Some(value: T) {

    /** The wrapped value, or `default` when absent (PHP's `??`). */
    function GetOr(default: T): T {
      match this
      case Some(v) => v
      case None => default
    }
  }

  /** The outcome of an operation that may throw an `InvalidArgumentException`:
      either the new value or the error that was raised. */
  datatype Result<+R, +E> = Ok(value: R) | Err(error: E) {

    predicate IsFailure() {
      Err?
    }

    function PropagateFailure<U>(): Result<U, E>
      requires Err?
    {
      Err(error)
    }

    function Extract(): R
      requires Ok?
    {
      value
    }
  }
}
